=== FILE: README.md ===
# Event registration ledger

A Dafny model of the registration logic of a small Express/PostgreSQL event
API (`controllers/eventController.js`). Users reserve one of a fixed number
of slots in an event and may cancel. The controller must never admit more
registrations than an event's capacity, and must never store the same user
twice for one event.

Once the SQL is taken away, every handler is a pure transition. It takes the
database state and returns an outcome tag together with the new state:

- `Ledger` (`ledger.dfy`) models the `event_registrations` table as a
  sequence of `(event_id, user_id)` rows. It defines the queries the
  controller issues: the existence probe, `COUNT(*)` per event, the `INSERT`,
  and `DELETE ... RETURNING`, which removes every matching row and reports
  `rowCount`. The table is a sequence, not a set, so "no pair is stored
  twice" is an invariant the controller has to keep. `Members` is the set
  view of one event. `CountIsMembers` ties the row count to that set.
- `Events` (`events.dfy`) holds the event record (date text, capacity) and
  the two input checks of `createEvent`.
- `Controller` (`controller.dfy`) defines the state: the event map, the id
  sequence, and the table. It has one function per handler:
  `CreateEvent`, `Register` (`registerForEvent`), `Cancel`
  (`cancelRegistration`), and `GetEventStats` (its integer part). `Valid` is
  the database invariant: ids below the sequence value, capacities in
  1..1000, no duplicate rows, every row refers to a stored event, and no
  event above its capacity.
- `Properties` (`properties.dfy`) shows that each handler preserves `Valid`,
  and so does any sequence of requests served one at a time. It also has
  the round trip register/cancel, idempotent cancellation, the per-pair
  state machine, and non-negative remaining capacity. Finally, it covers the
  sequential form of the "race test": distinct users arrive one after
  another, and exactly the free slots are filled.

Each handler is modelled as one atomic step. In the source the
SELECT/COUNT/INSERT of `registerForEvent` are separate queries and can
interleave with other requests. The model proves the sequential behaviour
those queries are meant to have.

Modelling choices:

- The past-date test `isPastDate` comes from a module that is not part of
  this model. `Register` therefore takes it as a parameter
  `isPast: Timestamp -> bool` over the stored date text. Whether the
  comparison is strict is left open.
- Event and user ids are natural numbers. The database assigns a new
  event's id on `INSERT ... RETURNING id`; the counter `nextEventId` stands
  in for it and hands out ids not yet in use.
- In a create request, an absent text field is the empty string. An absent
  capacity is 0. JavaScript's `!x` treats each pair alike, so the checks do
  too.
- The HTTP status of each outcome is noted next to its constructor.

Behaviour of the code that the model keeps as it is:

- Registration is refused when `isPastDate(date_time)` holds. The
  comparison is left abstract.
- Past-event and full-event refusals are both answered with status 400.
- Each handler has one catch-all 500 path, which is not modelled.
- In the field check of `createEvent`, the comma operator means only
  location and capacity are required (see Findings).

## Model

| member | source | states |
|---|---|---|
| Ledger.Count | controllers/eventController.js:81-85 | The per-event row count never exceeds the table size, and it is zero exactly when the event has no members. |
| Ledger.Insert | controllers/eventController.js:89-92 | The insert leaves the pair registered and adds exactly one row: the new table holds every old row with its old multiplicity, plus one copy of `(e, u)`. |
| Ledger.Delete | controllers/eventController.js:105-111 | The delete removes every copy of `(e, u)` and keeps every other row with its multiplicity. `rowCount` is the number of matching rows, so it is zero exactly when the pair was absent, and kept plus removed rows equal the old size. |
| Ledger.CountAppend | controllers/eventController.js:81-92 | An inserted row adds one to its own event's count and nothing to any other event. |
| Ledger.InsertKeepsUnique | controllers/eventController.js:73-92 | Inserting a pair that the existence probe found absent keeps the table duplicate-free. |
| Ledger.DeleteAbsent | controllers/eventController.js:105-111 | Deleting a pair that is not present changes nothing and reports zero rows. |
| Ledger.DeleteCount | controllers/eventController.js:105-110 | The delete lowers the count of `e` by exactly `rowCount` and leaves every other event's count unchanged. |
| Ledger.DeleteUnique | controllers/eventController.js:105-110 | On a duplicate-free table the delete removes at most one row and keeps the table duplicate-free. |
| Ledger.DeleteAfterInsert | controllers/eventController.js:89-108 | Deleting a freshly inserted pair gives back the original table, with `rowCount` 1. |
| Ledger.CountIsMembers | controllers/eventController.js:81-86 | On a duplicate-free table, the `COUNT(*)` that the capacity check compares equals the number of distinct registered users. |
| Events.Validate | controllers/eventController.js:9-15 | `createEvent` accepts exactly when location is present and capacity is in 1..1000; title and date are not checked. An absent location or an absent capacity (0) is refused as missing fields. A present capacity outside the range is refused as out of range. An accepted request yields the event with the given date and capacity. |
| Events.ValidateIntended | controllers/eventController.js:9-15 | The corrected check accepts exactly when title, date and location are all present and capacity is in 1..1000. |
| Events.CommaGuardAdmitsMissingTitleAndDate | controllers/eventController.js:9 | A request with neither title nor date passes the check as written, but the corrected check refuses it. |
| Events.IntendedRefinesAsWritten | controllers/eventController.js:9-15 | Any request the corrected check accepts is accepted by the check as written, with the same event. |
| Events.AsWrittenIgnoresTitleAndDate | controllers/eventController.js:9 | Changing title or date never changes the verdict of the check as written. |
| Controller.CreateEvent | controllers/eventController.js:5-22 | An event is created exactly when the request passes the checks. It gets a fresh id (on a valid state) and a capacity in 1..1000, and the registrations are untouched. A refusal gives the check's error and leaves the state unchanged. |
| Controller.Register | controllers/eventController.js:56-94 | Admission happens exactly when: the event exists, it is not past, the user is not a member, and count < capacity. The guards take precedence in order: missing event, then past event (whatever the capacity or membership), then duplicate (before the capacity check), then full. Every refusal leaves the state unchanged. An admission adds exactly one copy of `(e, u)` and keeps every other row with its multiplicity: that event's member set gains `u`, its count rises by one, and other events' counts stay the same. |
| Controller.Cancel | controllers/eventController.js:101-113 | The outcome is `Cancelled` exactly when the pair was registered. Otherwise it is `NotRegistered` and the state is unchanged. The event is never consulted, and every other row stays with its multiplicity. |
| Controller.GetEventStats | controllers/eventController.js:133-154 | The result is not-found exactly when the event is missing. Otherwise total plus remaining equals capacity, and on a duplicate-free table the total is the number of distinct members. |
| Properties.CreateEventPreservesValid | controllers/eventController.js:13-20 | Creating an event preserves the database invariant. In particular, every stored capacity stays in 1..1000. |
| Properties.RegisterPreservesValid | controllers/eventController.js:73-92 | Registration preserves uniqueness, referential integrity, and count <= capacity for every event. |
| Properties.CancelPreservesValid | controllers/eventController.js:105-111 | Cancellation preserves the database invariant. |
| Properties.CancelFreesOneSlot | controllers/eventController.js:105-113 | A successful cancellation on a duplicate-free table frees exactly one slot of its event and changes no other event's count. |
| Properties.RegisterThenCancel | controllers/eventController.js:89-108 | A successful registration followed by cancellation of the same pair restores the original state exactly. |
| Properties.ReRegisterAfterCancel | controllers/eventController.js:56-111 | Register, cancel, then register again: the second registration gives the same outcome and state as the first. |
| Properties.CancelMissingEvent | controllers/eventController.js:101-111 | On a valid state, cancelling for a nonexistent event answers `NotRegistered` and changes nothing, although cancel never looks the event up. |
| Properties.CancelIdempotent | controllers/eventController.js:105-111 | A second cancel of the same pair answers `NotRegistered` and is a no-op. |
| Properties.PairStateMachine | controllers/eventController.js:56-113 | After `register` answers admitted or already-registered, the pair is registered. After `cancel` it is not. Neither call changes any other pair. |
| Properties.StatsRemainingInRange | controllers/eventController.js:141-152 | On a valid state the reported remaining capacity lies between 0 and the capacity, which is at most 1000. |
| Properties.RunPreservesValid | controllers/eventController.js:5-118 | Any sequence of create/register/cancel requests, served one at a time, preserves the invariant. So no event ever exceeds its capacity and no pair is ever stored twice. |
| Properties.ReachableIsValid | controllers/eventController.js:5-118 | Every state reached from the empty database satisfies the invariant. |
| Properties.AdmitOne | controllers/eventController.js:73-92 | For a user not yet registered at an open event, the only refusal is `Full`. Admission happens exactly when a slot is free, and the count rises by one exactly then. |
| Properties.AdmitAll | controllers/eventController.js:56-92 | Serving a queue of distinct, unregistered users at an open event leaves min(capacity, taken + queue length) registrations. |
| Properties.SequentialAdmissionOutcomes | controllers/eventController.js:73-92 | In such a queue, the i-th user is admitted exactly when taken + i < capacity. Every other user is refused as `Full`. |

## Left out

- Concurrency: the SELECT/COUNT/INSERT of `registerForEvent` are not atomic in the source. Two requests can both see a free slot and both insert. The model serves one request at a time and proves that intended behaviour, not the race.
- The `pg` pool, JSON response bodies, `console.error` logging and the 500 catch paths of every handler (I/O). Database failures, such as a foreign-key violation for an unknown user or a non-numeric id in the route, fall into those paths and are not modelled.
- `isPastDate` is defined in a validators module that is not part of this model. It is a parameter of `Register`.
- `percentage_used` in `getEventStats` is floating point formatted with `toFixed`.
- `getEventDetails` and `listUpcomingEvents` are read-only joins, with filtering and sorting done by the database.
- The route table and server start-up in `routes/eventRoutes.js` and `app.js` are wiring with no logic. The duplicate `module.exports` assignment is also left out.
- Capacity values that are not integers (strings, fractions) are not modelled. The model's capacity is an integer, with 0 standing for an absent field.
- A register request whose body has no `user_id` is not modelled: user ids are natural numbers. The driver would send NULL, so the existence probe cannot match and the request reaches the INSERT. Whether that INSERT fails or stores a row with no user depends on the table schema, which is not part of this model.
- Controller.CreateEvent: an accepted request is stored with whatever date text it carried. A date the database cannot parse as a timestamp (an empty one, say), or an absent field under a NOT NULL column, makes the INSERT fail into the 500 path instead. That depends on the table schema, which is not part of this model.
- Controller.GetEventStats: the total equals the distinct-member count only when the table is duplicate-free. On an arbitrary table it is the raw row count, as the `COUNT(*)` query returns.

## Findings

| source | as written | input that shows it | evidently intended | confidence | as-written member | corrected member |
|---|---|---|---|---|---|---|
| controllers/eventController.js:9 | `!title \|\| !date_time, !location \|\| !capacity` is a comma expression. Its value is only `!location \|\| !capacity`. | `{title: "", date_time: "", location: "Hall A", capacity: 10}` passes the checks at lines 9-15 and reaches the INSERT. | Refuse the request when any of the four fields is missing, as the error text 'All fields ae required' (line 10) says. | high (not executed) | Events.CommaGuardAdmitsMissingTitleAndDate | Events.ValidateIntended |

`Controller.CreateEvent` keeps the check as written, so the model behaves
like the code. `Events.IntendedRefinesAsWritten` shows that the corrected
check accepts a subset of those requests and produces the same event for
each, and a refusal changes nothing. So the invariant `Valid` and its
preservation hold under either check. Facts about which requests are
accepted, such as `Events.CommaGuardAdmitsMissingTitleAndDate`, hold only
for the check as written.

=== FILE: controller.dfy ===
/**
 The event controller's state-changing handlers as pure transitions over
 the database state: `createEvent`, `registerForEvent`,
 `cancelRegistration`, and the integer part of `getEventStats`.

 Each handler is one atomic step: the separate queries of a handler are
 taken to run with nothing interleaved. The result tags stand for the HTTP
 answers; the status each one is sent with is noted at its constructor.
 */
module Controller {
  import opened Ledger
  import opened Events

  /** The `events` table, the id sequence behind it, and the registrations table. */
  datatype State = State(events: map<EventId, Event>, nextEventId: EventId, table: Table)

  datatype CreateOutcome =
    | Created(id: EventId)          // 201
    | CreateRefused(error: CreateError) // 400

  datatype RegisterOutcome =
    | Admitted           // 201
    | EventNotFound      // 404
    | PastEvent          // 400
    | AlreadyRegistered  // 409
    | Full               // 400

  datatype CancelOutcome =
    | Cancelled          // 200
    | NotRegistered      // 404

  datatype StatsOutcome =
    | Stats(totalRegistrations: nat, remainingCapacity: int)
    | StatsNotFound      // 404

  /**
   What every reachable state satisfies: ids come from the sequence, every
   capacity passed the create check, no pair is stored twice, every row
   belongs to a stored event, and no event holds more rows than its capacity.
   */
  predicate Valid(s: State) {
    && (forall e :: e in s.events ==> e < s.nextEventId)
    && (forall e :: e in s.events ==> CapacityInRange(s.events[e].capacity))
    && Unique(s.table)
    && (forall r :: r in s.table ==> r.eventId in s.events)
    && (forall e :: e in s.events ==> Count(s.table, e) <= s.events[e].capacity)
  }

  /** The empty database. */
  function Init(): (s: State)
    ensures Valid(s)
  {
    State(map[], 0, [])
  }

  /**
   `createEvent`: a request that passes the checks is stored under the next
   id of the sequence; nothing else changes, and a refused request changes
   nothing at all.
   */
  function CreateEvent(s: State, req: CreateRequest): (r: (CreateOutcome, State))
    ensures r.0.Created? <==> Validate(req).Accepted?
    ensures r.0.Created? && Valid(s) ==> r.0.id !in s.events
    ensures r.0.Created? ==>
      && r.1.events == s.events[r.0.id := Event(req.dateTime, req.capacity)]
      && CapacityInRange(r.1.events[r.0.id].capacity)
      && r.1.table == s.table
    ensures r.0.CreateRefused? ==> r.0.error == Validate(req).error && r.1 == s
  {
    match Validate(req)
    case Rejected(err) => (CreateRefused(err), s)
    case Accepted(ev) =>
      var id := s.nextEventId;
      (Created(id), s.(events := s.events[id := ev], nextEventId := id + 1))
  }

  /**
   `registerForEvent` for event `e` and user `u`. `isPast` stands for the
   date check the handler calls, whose definition is not part of this model.
   The guards run in a fixed order, so each refusal takes precedence over
   those after it; every refusal leaves the state as it was, and an
   admission adds exactly one row, for `(e, u)`.
   */
  function Register(s: State, e: EventId, u: UserId, isPast: Timestamp -> bool): (r: (RegisterOutcome, State))
    ensures r.0 == Admitted <==>
      && e in s.events
      && !isPast(s.events[e].dateTime)
      && u !in Members(s.table, e)
      && Count(s.table, e) < s.events[e].capacity
    ensures r.0 != Admitted ==> r.1 == s
    ensures e !in s.events ==> r.0 == EventNotFound
    ensures e in s.events && isPast(s.events[e].dateTime) ==> r.0 == PastEvent
    ensures e in s.events && !isPast(s.events[e].dateTime) && IsRegistered(s.table, e, u) ==> r.0 == AlreadyRegistered
    ensures (&& e in s.events && !isPast(s.events[e].dateTime) && !IsRegistered(s.table, e, u)
             && Count(s.table, e) >= s.events[e].capacity) ==> r.0 == Full
    ensures r.0 == Admitted ==>
      && r.1.events == s.events && r.1.nextEventId == s.nextEventId
      && (forall x :: x in r.1.table <==> x in s.table || x == Registration(e, u))
      && multiset(r.1.table) == multiset(s.table) + multiset{Registration(e, u)}
      && Members(r.1.table, e) == Members(s.table, e) + {u}
      && Count(r.1.table, e) == Count(s.table, e) + 1
      && (forall e' :: e' != e ==> Count(r.1.table, e') == Count(s.table, e'))
  {
    if e !in s.events then (EventNotFound, s)
    else
      var ev := s.events[e];
      if isPast(ev.dateTime) then (PastEvent, s)
      else if IsRegistered(s.table, e, u) then (AlreadyRegistered, s)
      else if Count(s.table, e) >= ev.capacity then (Full, s)
      else
        var t' := Insert(s.table, e, u);
        CountAppendAll(s.table, Registration(e, u));
        assert Members(t', e) == Members(s.table, e) + {u};
        (Admitted, s.(table := t'))
  }

  /**
   `cancelRegistration`: delete by key, without looking the event up. The
   pair is gone afterwards whatever the outcome, every other row stays, and
   the event map is untouched.
   */
  function Cancel(s: State, e: EventId, u: UserId): (r: (CancelOutcome, State))
    ensures r.0 == Cancelled <==> IsRegistered(s.table, e, u)
    ensures r.0 == NotRegistered ==> r.1 == s
    ensures r.1.events == s.events && r.1.nextEventId == s.nextEventId
    ensures forall x :: x in r.1.table <==> x in s.table && x != Registration(e, u)
    ensures multiset(r.1.table) == multiset(s.table)[Registration(e, u) := 0]
  {
    var (t', removed) := Delete(s.table, e, u);
    if removed == 0 then
      DeleteAbsent(s.table, e, u);
      (NotRegistered, s)
    else (Cancelled, s.(table := t'))
  }

  /**
   The integer part of `getEventStats`: the number of registrations and the
   capacity left, for a stored event.
   */
  function GetEventStats(s: State, e: EventId): (r: StatsOutcome)
    ensures r.StatsNotFound? <==> e !in s.events
    ensures r.Stats? ==> r.totalRegistrations + r.remainingCapacity == s.events[e].capacity
    ensures r.Stats? && Unique(s.table) ==> r.totalRegistrations == |Members(s.table, e)|
  {
    if e !in s.events then StatsNotFound
    else
      var total := Count(s.table, e);
      CountIsMembers(s.table, e);
      Stats(total, s.events[e].capacity - total)
  }
}

=== FILE: events.dfy ===
/**
 Event records and the input check `createEvent` applies before it inserts
 one.

 Request text fields are strings, with the empty string standing for a field
 that is absent: both are falsy to the `!field` test. The capacity is an
 integer, with 0 standing for an absent capacity: both fail `!capacity`, so
 the guard treats them alike.
 */
module Events {

  /** The stored `date_time` text; whether it lies in the past is decided elsewhere. */
  type Timestamp = string

  /** The part of an `events` row the registration logic reads. */
  datatype Event = Event(dateTime: Timestamp, capacity: int)

  /** The body of a create-event request. */
  datatype CreateRequest = CreateRequest(title: string, dateTime: Timestamp, location: string, capacity: int)

  /** Why a create-event request is refused (both answered with status 400). */
  datatype CreateError = MissingFields | CapacityOutOfRange

  datatype Validated = Accepted(event: Event) | Rejected(error: CreateError)

  /** JavaScript's `!x` on a request text field. */
  predicate Blank(s: string) {
    s == ""
  }

  /** The capacity range every stored event satisfies. */
  predicate CapacityInRange(c: int) {
    1 <= c <= 1000
  }

  /**
   The guard of `createEvent` as written. Its condition is the comma
   expression `(!title || !date_time), (!location || !capacity)`, whose value
   is its right operand only: an absent title or date is not refused.
   */
  predicate MissingAsWritten(req: CreateRequest) {
    Blank(req.location) || req.capacity == 0
  }

  /** The guard the error text 'All fields ae required' describes. */
  predicate MissingIntended(req: CreateRequest) {
    Blank(req.title) || Blank(req.dateTime) || Blank(req.location) || req.capacity == 0
  }

  /**
   `createEvent`'s checks in order: the field guard, then the capacity range.
   An accepted request yields the event record that is inserted.
   */
  function Validate(req: CreateRequest): (v: Validated)
    ensures v.Accepted? <==> !Blank(req.location) && CapacityInRange(req.capacity)
    ensures v.Accepted? ==> v.event == Event(req.dateTime, req.capacity)
    ensures MissingAsWritten(req) ==> v == Rejected(MissingFields)
    ensures !Blank(req.location) && req.capacity != 0 && !CapacityInRange(req.capacity) ==> v == Rejected(CapacityOutOfRange)
  {
    if MissingAsWritten(req) then Rejected(MissingFields)
    else if req.capacity <= 0 || req.capacity > 1000 then Rejected(CapacityOutOfRange)
    else Accepted(Event(req.dateTime, req.capacity))
  }

  /** The same checks with the field guard that refuses any absent field. */
  function ValidateIntended(req: CreateRequest): (v: Validated)
    ensures v.Accepted? <==>
      && !Blank(req.title) && !Blank(req.dateTime) && !Blank(req.location)
      && CapacityInRange(req.capacity)
    ensures v.Accepted? ==> v.event == Event(req.dateTime, req.capacity)
  {
    if MissingIntended(req) then Rejected(MissingFields)
    else if req.capacity <= 0 || req.capacity > 1000 then Rejected(CapacityOutOfRange)
    else Accepted(Event(req.dateTime, req.capacity))
  }

  /** The comma guard admits a request with neither title nor date. */
  lemma CommaGuardAdmitsMissingTitleAndDate()
    ensures Validate(CreateRequest("", "", "Hall A", 10)).Accepted?
    ensures ValidateIntended(CreateRequest("", "", "Hall A", 10)) == Rejected(MissingFields)
  {
  }

  /**
   Whatever the intended guard accepts, the guard as written accepts with the
   same event: the intended guard admits a subset of the requests, and a
   refusal changes nothing, so the database invariant and its preservation
   hold under either guard. Facts about which events can be stored (one with
   empty date text, say) hold only for the guard as written.
   */
  lemma IntendedRefinesAsWritten(req: CreateRequest)
    requires ValidateIntended(req).Accepted?
    ensures Validate(req) == ValidateIntended(req)
  {
  }

  /** Title and date never influence the verdict of the guard as written. */
  lemma AsWrittenIgnoresTitleAndDate(req: CreateRequest, title: string, dateTime: Timestamp)
    ensures Validate(req).Accepted? == Validate(req.(title := title, dateTime := dateTime)).Accepted?
  {
  }
}

=== FILE: ledger.dfy ===
/**
 The registration ledger: the `event_registrations` table as a sequence of
 rows, with the three queries the controller issues against it (the
 existence probe, `COUNT(*)` per event, `DELETE ... RETURNING`) and the
 `INSERT` that appends a row.

 The table is a sequence rather than a set so that "no pair is stored twice"
 is a property the controller has to maintain, not one the type gives away.
 */
module Ledger {

  type EventId = nat
  type UserId = nat

  /** One row of the registrations table. */
  datatype Registration = Registration(eventId: EventId, userId: UserId)

  type Table = seq<Registration>

  /** Uniqueness invariant: no (event, user) pair appears in two rows. */
  predicate Unique(t: Table) {
    forall i, j :: 0 <= i < j < |t| ==> t[i] != t[j]
  }

  /** The existence probe `SELECT 1 ... WHERE event_id = e AND user_id = u`. */
  predicate IsRegistered(t: Table, e: EventId, u: UserId) {
    Registration(e, u) in t
  }

  /** Users holding a slot in event `e`: the set view of the table. */
  function Members(t: Table, e: EventId): set<UserId> {
    set r | r in t && r.eventId == e :: r.userId
  }

  /** `SELECT COUNT(*) ... WHERE event_id = e`, counted row by row. */
  function Count(t: Table, e: EventId): (n: nat)
    ensures n <= |t|
    ensures n == 0 <==> Members(t, e) == {}
  {
    if |t| == 0 then 0
    else
      var p := t[..|t| - 1];
      assert t == p + [t[|t| - 1]];
      var n := Count(p, e) + if t[|t| - 1].eventId == e then 1 else 0;
      assert t[|t| - 1].eventId == e ==> t[|t| - 1].userId in Members(t, e);
      assert Members(p, e) <= Members(t, e);
      assert Members(t, e) <= Members(p, e) + (if t[|t| - 1].eventId == e then {t[|t| - 1].userId} else {});
      n
  }

  /** The `INSERT` of a new row. */
  function Insert(t: Table, e: EventId, u: UserId): (t': Table)
    ensures IsRegistered(t', e, u)
    ensures |t'| == |t| + 1
    ensures forall r :: r in t' <==> r in t || r == Registration(e, u)
    ensures multiset(t') == multiset(t) + multiset{Registration(e, u)}
  {
    t + [Registration(e, u)]
  }

  /**
   `DELETE ... WHERE event_id = e AND user_id = u RETURNING *`: every
   matching row goes, every other row stays in order, and the second
   component is the number of rows removed (`rowCount`).
   */
  function Delete(t: Table, e: EventId, u: UserId): (res: (Table, nat))
    ensures forall r :: r in res.0 <==> r in t && r != Registration(e, u)
    ensures |res.0| + res.1 == |t|
    ensures res.1 == 0 <==> !IsRegistered(t, e, u)
    ensures res.1 == multiset(t)[Registration(e, u)]
    ensures multiset(res.0) == multiset(t)[Registration(e, u) := 0]
  {
    if |t| == 0 then ([], 0)
    else
      var p := t[..|t| - 1];
      var last := t[|t| - 1];
      assert t == p + [last];
      var (kept, removed) := Delete(p, e, u);
      if last == Registration(e, u) then (kept, removed + 1)
      else (kept + [last], removed)
  }

  /** Appending a row adds one to the count of its own event and none to any other. */
  lemma CountAppend(t: Table, r: Registration, e: EventId)
    ensures Count(t + [r], e) == Count(t, e) + (if r.eventId == e then 1 else 0)
  {
    assert (t + [r])[..|t|] == t;
  }

  /** `CountAppend` for every event at once. */
  lemma CountAppendAll(t: Table, r: Registration)
    ensures forall e :: Count(t + [r], e) == Count(t, e) + (if r.eventId == e then 1 else 0)
  {
    forall e: EventId
      ensures Count(t + [r], e) == Count(t, e) + (if r.eventId == e then 1 else 0)
    {
      CountAppend(t, r, e);
    }
  }

  /** Appending a pair not yet present keeps the table duplicate-free. */
  lemma InsertKeepsUnique(t: Table, e: EventId, u: UserId)
    requires Unique(t)
    requires !IsRegistered(t, e, u)
    ensures Unique(Insert(t, e, u))
  {
    var t' := Insert(t, e, u);
    forall i, j | 0 <= i < j < |t'|
      ensures t'[i] != t'[j]
    {
      if j == |t| {
        assert t'[i] == t[i];
      } else {
        assert t'[i] == t[i] && t'[j] == t[j];
      }
    }
  }

  /** Deleting from a table without the pair changes nothing and reports zero rows. */
  lemma {:induction false} DeleteAbsent(t: Table, e: EventId, u: UserId)
    requires !IsRegistered(t, e, u)
    ensures Delete(t, e, u) == (t, 0)
  {
    if |t| > 0 {
      var p := t[..|t| - 1];
      assert t == p + [t[|t| - 1]];
      assert !IsRegistered(p, e, u);
      DeleteAbsent(p, e, u);
    }
  }

  /**
   The delete lowers the count of event `e` by exactly the number of rows it
   removed and leaves every other event's count alone.
   */
  lemma {:induction false} DeleteCount(t: Table, e: EventId, u: UserId)
    ensures Count(Delete(t, e, u).0, e) == Count(t, e) - Delete(t, e, u).1
    ensures forall e' :: e' != e ==> Count(Delete(t, e, u).0, e') == Count(t, e')
  {
    if |t| > 0 {
      var p := t[..|t| - 1];
      var last := t[|t| - 1];
      assert t == p + [last];
      DeleteCount(p, e, u);
      var kept := Delete(p, e, u).0;
      forall e': EventId
        ensures Count(t, e') == Count(p, e') + (if last.eventId == e' then 1 else 0)
        ensures Count(kept + [last], e') == Count(kept, e') + (if last.eventId == e' then 1 else 0)
      {
        CountAppend(p, last, e');
        CountAppend(kept, last, e');
      }
    }
  }

  /** On a duplicate-free table the delete removes at most one row and keeps the table duplicate-free. */
  lemma {:induction false} DeleteUnique(t: Table, e: EventId, u: UserId)
    requires Unique(t)
    ensures Delete(t, e, u).1 <= 1
    ensures Unique(Delete(t, e, u).0)
  {
    if |t| > 0 {
      var p := t[..|t| - 1];
      var last := t[|t| - 1];
      assert t == p + [last];
      assert Unique(p);
      DeleteUnique(p, e, u);
      var (kept, removed) := Delete(p, e, u);
      assert last !in p by {
        forall i | 0 <= i < |p|
          ensures p[i] != last
        {
          assert t[i] == p[i];
        }
      }
      if last != Registration(e, u) {
        InsertKeepsUnique(kept, last.eventId, last.userId);
      }
    }
  }

  /** Removing a row that was just appended restores the table exactly. */
  lemma DeleteAfterInsert(t: Table, e: EventId, u: UserId)
    requires !IsRegistered(t, e, u)
    ensures Delete(Insert(t, e, u), e, u) == (t, 1)
  {
    var t' := Insert(t, e, u);
    assert t'[..|t'| - 1] == t;
    DeleteAbsent(t, e, u);
  }

  /**
   The count the controller compares against capacity is the number of
   distinct members, as long as the table is duplicate-free.
   */
  lemma {:induction false} CountIsMembers(t: Table, e: EventId)
    ensures Unique(t) ==> Count(t, e) == |Members(t, e)|
  {
    if |t| > 0 && Unique(t) {
      var p := t[..|t| - 1];
      var last := t[|t| - 1];
      assert t == p + [last];
      assert Unique(p);
      CountIsMembers(p, e);
      CountAppend(p, last, e);
      if last.eventId == e {
        assert Members(t, e) == Members(p, e) + {last.userId};
        assert last.userId !in Members(p, e);
      } else {
        assert Members(t, e) == Members(p, e);
      }
    }
  }
}

=== FILE: properties.dfy ===
/**
 Properties of the controller's transitions: each one preserves the
 database invariant, registration and cancellation undo each other, a
 repeated cancellation is a no-op, the remaining capacity reported by the
 statistics is never negative, and admitting a queue of distinct users one
 at a time fills the event exactly up to its capacity.
 */
module Properties {
  import opened Ledger
  import opened Events
  import opened Controller

  lemma CreateEventPreservesValid(s: State, req: CreateRequest)
    requires Valid(s)
    ensures Valid(CreateEvent(s, req).1)
  {
    var (out, s') := CreateEvent(s, req);
    if out.Created? {
      forall e | e in s'.events
        ensures Count(s'.table, e) <= s'.events[e].capacity
      {
        if e == out.id {
          assert Members(s.table, e) == {};
        }
      }
    }
  }

  lemma RegisterPreservesValid(s: State, e: EventId, u: UserId, isPast: Timestamp -> bool)
    requires Valid(s)
    ensures Valid(Register(s, e, u, isPast).1)
  {
    var (out, s') := Register(s, e, u, isPast);
    if out == Admitted {
      InsertKeepsUnique(s.table, e, u);
      assert forall e' :: e' in s'.events ==> Count(s'.table, e') <= s'.events[e'].capacity;
    }
  }

  lemma CancelPreservesValid(s: State, e: EventId, u: UserId)
    requires Valid(s)
    ensures Valid(Cancel(s, e, u).1)
  {
    DeleteUnique(s.table, e, u);
    DeleteCount(s.table, e, u);
  }

  /** On a duplicate-free table a cancellation frees exactly one slot of `e` and no other. */
  lemma CancelFreesOneSlot(s: State, e: EventId, u: UserId)
    requires Unique(s.table)
    requires Cancel(s, e, u).0 == Cancelled
    ensures Count(Cancel(s, e, u).1.table, e) == Count(s.table, e) - 1
    ensures forall e' :: e' != e ==> Count(Cancel(s, e, u).1.table, e') == Count(s.table, e')
  {
    DeleteUnique(s.table, e, u);
    DeleteCount(s.table, e, u);
  }

  /** A successful registration followed by its cancellation restores the state exactly. */
  lemma RegisterThenCancel(s: State, e: EventId, u: UserId, isPast: Timestamp -> bool)
    requires Register(s, e, u, isPast).0 == Admitted
    ensures Cancel(Register(s, e, u, isPast).1, e, u) == (Cancelled, s)
  {
    DeleteAfterInsert(s.table, e, u);
  }

  /**
   Register, cancel, register again: the second registration is admitted
   too, and the net effect is the one registration.
   */
  lemma ReRegisterAfterCancel(s: State, e: EventId, u: UserId, isPast: Timestamp -> bool)
    requires Register(s, e, u, isPast).0 == Admitted
    ensures Register(Cancel(Register(s, e, u, isPast).1, e, u).1, e, u, isPast) == Register(s, e, u, isPast)
  {
    RegisterThenCancel(s, e, u, isPast);
  }

  /**
   Cancelling against an event that does not exist is answered
   `NotRegistered` on any valid state: cancellation never looks the event up,
   but no row can refer to a missing event.
   */
  lemma CancelMissingEvent(s: State, e: EventId, u: UserId)
    requires Valid(s)
    requires e !in s.events
    ensures Cancel(s, e, u) == (NotRegistered, s)
  {
    assert !IsRegistered(s.table, e, u);
  }

  /** A second cancellation of the same pair reports `NotRegistered` and changes nothing. */
  lemma CancelIdempotent(s: State, e: EventId, u: UserId)
    ensures Cancel(Cancel(s, e, u).1, e, u) == (NotRegistered, Cancel(s, e, u).1)
  {
    var s' := Cancel(s, e, u).1;
    assert !IsRegistered(s'.table, e, u);
  }

  /**
   Per-pair state machine: the pair is registered after `register`
   whenever the event exists and is not past (admitted now or already
   there), and is not registered after `cancel`; neither call moves any
   other pair.
   */
  lemma PairStateMachine(s: State, e: EventId, u: UserId, isPast: Timestamp -> bool, e': EventId, u': UserId)
    requires (e', u') != (e, u)
    ensures var (out, s1) := Register(s, e, u, isPast);
      && (out == Admitted || out == AlreadyRegistered ==> IsRegistered(s1.table, e, u))
      && IsRegistered(s1.table, e', u') == IsRegistered(s.table, e', u')
    ensures var s2 := Cancel(s, e, u).1;
      && !IsRegistered(s2.table, e, u)
      && IsRegistered(s2.table, e', u') == IsRegistered(s.table, e', u')
  {
  }

  /**
   The integer statistics on a valid state: the remaining capacity is never
   negative and never above the capacity, which lies in 1..1000.
   */
  lemma StatsRemainingInRange(s: State, e: EventId)
    requires Valid(s)
    requires e in s.events
    ensures GetEventStats(s, e).Stats?
    ensures 0 <= GetEventStats(s, e).remainingCapacity <= s.events[e].capacity <= 1000
  {
  }

  /** One request the controller handles; `isPast` is the clock's verdict when it runs. */
  datatype Request =
    | CreateReq(req: CreateRequest)
    | RegisterReq(e: EventId, u: UserId, isPast: Timestamp -> bool)
    | CancelReq(e: EventId, u: UserId)

  function Step(s: State, q: Request): State {
    match q
    case CreateReq(req) => CreateEvent(s, req).1
    case RegisterReq(e, u, isPast) => Register(s, e, u, isPast).1
    case CancelReq(e, u) => Cancel(s, e, u).1
  }

  function Run(s: State, qs: seq<Request>): State
    decreases |qs|
  {
    if |qs| == 0 then s else Run(Step(s, qs[0]), qs[1..])
  }

  /**
   The invariant holds after any sequence of requests served one at a
   time from the empty database: in particular no event ever has more
   registrations than its capacity, and no pair is ever stored twice.
   */
  lemma {:induction false} RunPreservesValid(s: State, qs: seq<Request>)
    requires Valid(s)
    ensures Valid(Run(s, qs))
    decreases |qs|
  {
    if |qs| > 0 {
      match qs[0] {
        case CreateReq(req) => CreateEventPreservesValid(s, req);
        case RegisterReq(e, u, isPast) => RegisterPreservesValid(s, e, u, isPast);
        case CancelReq(e, u) => CancelPreservesValid(s, e, u);
      }
      RunPreservesValid(Step(s, qs[0]), qs[1..]);
    }
  }

  lemma ReachableIsValid(qs: seq<Request>)
    ensures Valid(Run(Init(), qs))
  {
    RunPreservesValid(Init(), qs);
  }

  predicate Distinct(users: seq<UserId>) {
    forall i, j :: 0 <= i < j < |users| ==> users[i] != users[j]
  }

  /**
   One admission attempt at an open event by a user not yet registered: it
   is refused only as `Full`, and succeeds exactly when a slot is free.
   */
  lemma AdmitOne(s: State, e: EventId, u: UserId, isPast: Timestamp -> bool)
    requires e in s.events && !isPast(s.events[e].dateTime)
    requires !IsRegistered(s.table, e, u)
    ensures var (out, s1) := Register(s, e, u, isPast);
      && s1.events == s.events
      && (out == Admitted <==> Count(s.table, e) < s.events[e].capacity)
      && (out != Admitted ==> out == Full)
      && Count(s1.table, e) == Count(s.table, e) + (if out == Admitted then 1 else 0)
      && (forall v :: v != u ==> IsRegistered(s1.table, e, v) == IsRegistered(s.table, e, v))
  {
  }

  /** An open event `e` and a queue of distinct users none of whom holds a slot in it. */
  predicate OpenQueue(s: State, e: EventId, users: seq<UserId>, isPast: Timestamp -> bool) {
    && e in s.events && !isPast(s.events[e].dateTime)
    && Distinct(users)
    && (forall i :: 0 <= i < |users| ==> !IsRegistered(s.table, e, users[i]))
  }

  /**
   Registers each user of `users` for `e` in turn, collecting the outcomes.
   For an open queue on an event not over capacity, the event ends with
   min(capacity, taken + |users|) registrations: exactly the free slots are
   filled, and no more.
   */
  function AdmitAll(s: State, e: EventId, users: seq<UserId>, isPast: Timestamp -> bool): (r: (seq<RegisterOutcome>, State))
    ensures |r.0| == |users|
    ensures r.1.events == s.events
    ensures OpenQueue(s, e, users, isPast) && Count(s.table, e) <= s.events[e].capacity ==>
      Count(r.1.table, e) == Min(s.events[e].capacity, Count(s.table, e) + |users|)
    decreases |users|
  {
    if |users| == 0 then ([], s)
    else
      var first := Register(s, e, users[0], isPast);
      QueueStep(s, e, users, isPast);
      var rest := AdmitAll(first.1, e, users[1..], isPast);
      ([first.0] + rest.0, rest.1)
  }

  /** Serving the head of an open queue: the admission facts, and the tail stays open. */
  lemma QueueStep(s: State, e: EventId, users: seq<UserId>, isPast: Timestamp -> bool)
    requires |users| > 0
    ensures OpenQueue(s, e, users, isPast) ==>
      var (out, s1) := Register(s, e, users[0], isPast);
      && (out == Admitted <==> Count(s.table, e) < s.events[e].capacity)
      && Count(s1.table, e) == Count(s.table, e) + (if out == Admitted then 1 else 0)
      && OpenQueue(s1, e, users[1..], isPast)
  {
    if OpenQueue(s, e, users, isPast) {
      AdmitOne(s, e, users[0], isPast);
      QueueTail(s, e, users, isPast);
    }
  }

  /** The queue's preconditions carry over to its tail after the head is served. */
  lemma QueueTail(s: State, e: EventId, users: seq<UserId>, isPast: Timestamp -> bool)
    requires |users| > 0
    requires OpenQueue(s, e, users, isPast)
    ensures OpenQueue(Register(s, e, users[0], isPast).1, e, users[1..], isPast)
  {
    var tail := users[1..];
    AdmitOne(s, e, users[0], isPast);
    assert forall i :: 0 <= i < |tail| ==> tail[i] == users[i + 1] && users[i + 1] != users[0];
    forall i, j | 0 <= i < j < |tail|
      ensures tail[i] != tail[j]
    {
      assert tail[i] == users[i + 1] && tail[j] == users[j + 1];
    }
  }

  /**
   Distinct users, none yet registered, arriving one after another at an
   open event: the i-th is admitted exactly when fewer than `capacity`
   slots were taken before it, and every other one is refused as `Full`.
   */
  lemma {:induction false} SequentialAdmissionOutcomes(s: State, e: EventId, users: seq<UserId>, isPast: Timestamp -> bool)
    requires OpenQueue(s, e, users, isPast)
    ensures forall i :: 0 <= i < |users| ==>
      (AdmitAll(s, e, users, isPast).0[i] == Admitted <==> Count(s.table, e) + i < s.events[e].capacity)
    ensures forall i :: 0 <= i < |users| ==> AdmitAll(s, e, users, isPast).0[i] in {Admitted, Full}
    decreases |users|
  {
    if |users| > 0 {
      AdmitOne(s, e, users[0], isPast);
      QueueStep(s, e, users, isPast);
      var first := Register(s, e, users[0], isPast);
      SequentialAdmissionOutcomes(first.1, e, users[1..], isPast);
      var rest := AdmitAll(first.1, e, users[1..], isPast).0;
      var outs := AdmitAll(s, e, users, isPast).0;
      assert outs == [first.0] + rest;
      assert forall i :: 0 < i < |users| ==> outs[i] == rest[i - 1];
    }
  }

  function Min(a: int, b: int): int {
    if a <= b then a else b
  }
}
